=== FILE: README.md ===
# RestClientService, modelled in Dafny

`RestClientService` (package `migl-rest-client`) is an Angular service that
wraps `HttpClient`. It prefixes request paths with a configured endpoint. In
mock-data mode it points extension-less URLs at `.json` fixtures and sends
every verb as `get`. It attaches a bearer token read from a cookie or from
local storage, and it can flatten a payload into multipart form data. Two
one-shot flags change the next request only: `secured()` and `withFiles()`.

The model is functional. An instance is an immutable `Client.State`: its
configuration plus the two flags. Every operation is a pure function that
returns the next state together with a description of the `HttpClient.request`
call it would make (`Client.HttpCall`), or the error the source would throw.
The token stores are two maps (`TokenStore.Stores`). `JSON.parse` is a
parameter (`TokenStore.Decoder`).

Modules:

- `Results` (results.dfy): `Option` and `Result`.
- `JsValues` (js_values.dfy): JavaScript payload values, truthiness and the
  property order of `for … in`.
- `Urls` (urls.dfy): `buildUrl` and the extension regular expression, with the
  regex semantics stated as a ghost predicate and proved equal to an
  executable scan.
- `FormData` (form_data.dfy): `createFormData`, with a concatenation-based
  reference definition.
- `Settings` (settings.dfy): the configuration record and the merge done by
  the constructor and `configure`.
- `TokenStore` (token_store.dfy): `getToken`, `setToken`, `revoke`,
  `isAuthorized`.
- `Client` (client.dfy): the flags, `request`, `download` and the verb
  wrappers.
- `ClientProperties` (client_properties.dfy): properties of call sequences.

The model follows the code where it departs from what the configuration type
and the method names suggest:

- A truthy `tokenStorage` setting is assigned to the token *name*. The storage
  kind therefore stays `cookie` for every instance, and configuring
  `'localStorage'` only renames the cookie (`ClientProperties.LocalStorageSettingRenamesCookie`).
- `authUri` and `validationTokenUri` are never assigned by configuration.
- With local storage the token is written raw but read back through
  `JSON.parse`, so `setToken`/`getToken` round-trips only with cookies
  (`TokenStore.LocalStorageReadBack`).
- A FileList is an object and not a File, so `createFormData` recurses into it
  and yields `key[0]`, `key[1]`, …. The `key[]` branch is unreachable
  (`FormData.FileListEntries`).
- A secured request with no token keeps the base header's empty
  `Authorization` value; it does not drop the header.

## Model

| member | source | states |
|---|---|---|
| `Urls.DropTrailingSlash` | projects/migl-rest-client/src/lib/migl-rest-client.service.ts:332 | `/\/$/` removes at most one slash, and removes one exactly when the endpoint ends with `/` |
| `Urls.DropLeadingSlash` | projects/migl-rest-client/src/lib/migl-rest-client.service.ts:332 | `/^\//g` removes at most one slash (the anchor only matches at index 0), and removes one exactly when the path starts with `/` |
| `Urls.JoinUrl` | projects/migl-rest-client/src/lib/migl-rest-client.service.ts:332 | the joined URL is the endpoint followed by exactly one seam slash and the path without its leading slash; the endpoint is always a prefix |
| `Urls.RunEnd` | projects/migl-rest-client/src/lib/migl-rest-client.service.ts:333 | the end of the maximal `[0-9a-z]` run (case-insensitive) from a position |
| `Urls.FindExtension` | projects/migl-rest-client/src/lib/migl-rest-client.service.ts:333 | the scan answers true exactly when the extension regular expression (a dot, letters or digits, then `?`, `#` or the end) has a match starting at or after the given index |
| `Urls.JsonSuffixMatches` | projects/migl-rest-client/src/lib/migl-rest-client.service.ts:333-337 | a URL with `.json` appended always contains an extension match |
| `Urls.MockFixture` | projects/migl-rest-client/src/lib/migl-rest-client.service.ts:333-337 | `.json` is appended exactly when the URL has no extension match, and the result always has one |
| `Urls.MockFixtureIdempotent` | projects/migl-rest-client/src/lib/migl-rest-client.service.ts:333-337 | rewriting twice equals rewriting once, so `.json.json` never arises |
| `Urls.BuildUrl` | projects/migl-rest-client/src/lib/migl-rest-client.service.ts:331-340 | without mock mode the join is returned unchanged; with it, the join gets `.json` exactly when it has no extension, and the result always has one |
| `Urls.JoinExamples` | projects/migl-rest-client/src/lib/migl-rest-client.service.ts:332 | `/api/` + `/users` gives `/api/users`, and `/api//` + `//x` gives `/api///x` |
| `Urls.FixturePlainPath` | projects/migl-rest-client/src/lib/migl-rest-client.service.ts:333-337 | `x/list` becomes `x/list.json` |
| `Urls.FixtureDottedDirectory` | projects/migl-rest-client/src/lib/migl-rest-client.service.ts:333-337 | a dot followed by `/` (`v1.2/list`) is no extension |
| `Urls.FixtureWithExtension` | projects/migl-rest-client/src/lib/migl-rest-client.service.ts:333-337 | `x/list.csv` and `x/list.json?page=2` are left unchanged |
| `Urls.FixtureQueryString` | projects/migl-rest-client/src/lib/migl-rest-client.service.ts:333-337 | the test covers the query string: `x/list?x=1` becomes `x/list?x=1.json`, and `a/b?f=x.csv` is unchanged |
| `JsValues.ForIn` | projects/migl-rest-client/src/lib/migl-rest-client.service.ts:347 | `for … in` visits an object's listed properties, a FileList's indices `"0"`, `"1"`, … with their files, and nothing for numbers, booleans, `null`, `undefined`, Dates and Files |
| `JsValues.ForInString` | projects/migl-rest-client/src/lib/migl-rest-client.service.ts:347 | `for … in` over a string visits its indices `"0"`, `"1"`, … as own properties holding its one-character strings |
| `JsValues.ObjectTypeValues` | projects/migl-rest-client/src/lib/migl-rest-client.service.ts:355 | `typeof x === 'object'` holds exactly for `null` and the objects (Dates, Files, FileLists, plain objects), so a FileList and `null` pass it |
| `JsValues.FalsyValues` | projects/migl-rest-client/src/lib/migl-rest-client.service.ts:348 | `!x` holds exactly for `""`, `0`, `false`, `null` and `undefined`; every object is truthy |
| `JsValues.DecimalString` | projects/migl-rest-client/src/lib/migl-rest-client.service.ts:347 | an index key is a non-empty string of decimal digits without a leading zero |
| `JsValues.DecimalRoundTrip` | projects/migl-rest-client/src/lib/migl-rest-client.service.ts:347 | an index key reads back as its index |
| `JsValues.IndexProps` | projects/migl-rest-client/src/lib/migl-rest-client.service.ts:347 | the index properties of an array-like value are own, keyed by their decimal indices in ascending order, and hold its elements |
| `JsValues.IntString` | projects/migl-rest-client/src/lib/migl-rest-client.service.ts:360 | `String(n)` of an integer starts with `-` exactly for a negative number, and its remaining characters are decimal digits that denote `|n|` |
| `FormData.FormKey` | projects/migl-rest-client/src/lib/migl-rest-client.service.ts:351 | with a non-empty namespace the key starts with `ns[` and ends with `]`; with an empty one, which is falsy, it is the bare property |
| `FormData.FormKeyInverse` | projects/migl-rest-client/src/lib/migl-rest-client.service.ts:351 | the key is exactly `ns[prop]`: it is two characters longer than namespace and property together, and the property reads back from between the brackets |
| `FormData.AppendedValue` | projects/migl-rest-client/src/lib/migl-rest-client.service.ts:360 | a leaf becomes a Blob exactly when it is a File |
| `FormData.AppendedLeaf` | projects/migl-rest-client/src/lib/migl-rest-client.service.ts:360 | a File is appended as a Blob of itself; a string as itself, a number as its decimal `String(n)`, a boolean as `"true"`/`"false"` |
| `FormData.AppendProp` | projects/migl-rest-client/src/lib/migl-rest-client.service.ts:348-361 | one loop iteration only appends to the form, and every key it adds under a non-empty namespace starts with `ns[`; the branch order is the source's, and the `${property}[]` branch is proved unreachable |
| `FormData.AppendProps` | projects/migl-rest-client/src/lib/migl-rest-client.service.ts:347-362 | the loop keeps the given form as a prefix, and every key it adds under a non-empty namespace starts with `ns[` |
| `FormData.CreateFormData` | projects/migl-rest-client/src/lib/migl-rest-client.service.ts:345-364 | the form passed in is a prefix of the result; every key added below a non-empty namespace starts with `ns[` |
| `FormData.AppendPropIsConcat` | projects/migl-rest-client/src/lib/migl-rest-client.service.ts:348-361 | one iteration appends exactly the reference entries of its property |
| `FormData.AppendPropsIsConcat` | projects/migl-rest-client/src/lib/migl-rest-client.service.ts:345-364 | the accumulating walk equals the given form followed by the concatenation-based reference entries |
| `FormData.CreateFormDataOnlyAppends` | projects/migl-rest-client/src/lib/migl-rest-client.service.ts:345-364 | the result on a non-empty form is that form followed by the result on an empty one |
| `FormData.SkippedProp` | projects/migl-rest-client/src/lib/migl-rest-client.service.ts:348-350 | an inherited property, or a falsy value (`0`, `""`, `false`, `null`, `undefined`), contributes nothing |
| `FormData.FileListEntries` | projects/migl-rest-client/src/lib/migl-rest-client.service.ts:354-358 | a FileList under key `k` yields exactly `k[0]`, `k[1]`, … holding its files in order (bare indices under the falsy key `""`), never `k[]` |
| `FormData.FileIndexEntries` | projects/migl-rest-client/src/lib/migl-rest-client.service.ts:347-360 | own properties holding files yield one Blob entry each, in order, under `ns[key]` |
| `FormData.FileListKeysDistinct` | projects/migl-rest-client/src/lib/migl-rest-client.service.ts:354-358 | the keys a FileList appends to a form are pairwise distinct |
| `FormData.SampleFlattening` | projects/migl-rest-client/src/lib/migl-rest-client.service.ts:345-364 | `{a: 1, b: {c: 2}, d: <Date>, e: null}` yields `a=1`, `b[c]=2` and `d=<ISO string>`, with `e` dropped |
| `FormData.EmptyNamespaceIsFalsy` | projects/migl-rest-client/src/lib/migl-rest-client.service.ts:351 | children of a property named `""` are keyed without any prefix |
| `Settings.Merge` | projects/migl-rest-client/src/lib/migl-rest-client.service.ts:127-134 | only truthy fields overwrite; `mockData` and `secureCookie` can only be switched on; an expiry of `0` is ignored; `tokenStorage` wins over `tokenName` as the token name; storage kind and both URIs never change |
| `Settings.MergeNothing` | projects/migl-rest-client/src/lib/migl-rest-client.service.ts:127-134 | a configuration with no truthy field changes nothing |
| `Settings.MergeIdempotent` | projects/migl-rest-client/src/lib/migl-rest-client.service.ts:127-134 | applying a configuration twice is applying it once |
| `Settings.MergeNeverSwitchesOff` | projects/migl-rest-client/src/lib/migl-rest-client.service.ts:131-132 | mock mode and secure cookies stay on once on |
| `TokenStore.GetToken` | projects/migl-rest-client/src/lib/migl-rest-client.service.ts:140-158 | fails exactly for an unknown storage kind or a local item `JSON.parse` rejects; cookie storage never fails; a present non-empty cookie is returned, a present local item is returned as parsed when truthy; a missing, empty or falsy entry reads as `''` |
| `TokenStore.SetToken` | projects/migl-rest-client/src/lib/migl-rest-client.service.ts:311-326 | fails exactly for an unknown storage kind; otherwise writes the cookie (value, secure flag, expiry `now + cookieExpires`) or the raw local item, and nothing else changes |
| `TokenStore.Revoke` | projects/migl-rest-client/src/lib/migl-rest-client.service.ts:182-193 | fails exactly for an unknown storage kind, with the storage-kind error; otherwise clears every cookie, or removes just the one local item |
| `TokenStore.IsAuthorized` | projects/migl-rest-client/src/lib/migl-rest-client.service.ts:198-200 | true exactly when `getToken` succeeds with a truthy token, whatever its text; it throws exactly when `getToken` does, with the same error |
| `TokenStore.CookieRoundTrip` | projects/migl-rest-client/src/lib/migl-rest-client.service.ts:311-326 | with cookie storage, reading after writing a token returns that token (`''` for an empty one) |
| `TokenStore.LocalStorageReadBack` | projects/migl-rest-client/src/lib/migl-rest-client.service.ts:147-151 | with local storage the read returns the parsed raw token written (`''` when falsy), and fails when it is not JSON |
| `TokenStore.TruthyEmptyTextAuthorizes` | projects/migl-rest-client/src/lib/migl-rest-client.service.ts:150-157 | an item that parses to a truthy value with empty text, such as `[]`, is returned as a token and authorises the client |
| `TokenStore.RevokeLogsOut` | projects/migl-rest-client/src/lib/migl-rest-client.service.ts:182-200 | after a successful `revoke` the client is not authorised |
| `Client.New` | projects/migl-rest-client/src/lib/migl-rest-client.service.ts:106-119 | a new instance has both flags off and the defaults, merged with the optional configuration |
| `Client.Configure` | projects/migl-rest-client/src/lib/migl-rest-client.service.ts:127-135 | `configure` merges into the same instance: pending flags survive |
| `Client.Secured` | projects/migl-rest-client/src/lib/migl-rest-client.service.ts:255-258 | sets the secure flag and changes nothing else |
| `Client.Public` | projects/migl-rest-client/src/lib/migl-rest-client.service.ts:266-269 | clears the secure flag and changes nothing else |
| `Client.WithFiles` | projects/migl-rest-client/src/lib/migl-rest-client.service.ts:237-240 | sets the files flag and changes nothing else |
| `Client.BearerCredentials` | projects/migl-rest-client/src/lib/migl-rest-client.service.ts:384 | the value is `Bearer`, one space and the token (section 2.1 of RFC 6750) |
| `Client.RequestHeaders` | projects/migl-rest-client/src/lib/migl-rest-client.service.ts:375-386 | an unsecured call gets the base header without reading the store; a secured one fails exactly when the read fails, and otherwise gets `Bearer <token>` for a truthy token and `""` otherwise, with the other headers unchanged |
| `Client.Spread` | projects/migl-rest-client/src/lib/migl-rest-client.service.ts:403 | every key present in the caller's options wins; every absent key keeps the computed value |
| `Client.IsGetSpellings` | projects/migl-rest-client/src/lib/migl-rest-client.service.ts:390 | the GET test accepts exactly the eight letter-case spellings of `get` |
| `Client.EffectiveResponseType` | projects/migl-rest-client/src/lib/migl-rest-client.service.ts:388 | the response type is the caller's when truthy, else `json` |
| `Client.Request` | projects/migl-rest-client/src/lib/migl-rest-client.service.ts:370-407 | it throws exactly when secured and `getToken` throws, with `getToken`'s error, leaving the state unchanged; success clears both flags; the verb is `get` in mock mode; the URL is `buildUrl(url)`; the caller's options override; otherwise GET gets body `{}` and params `data`, other verbs get params `{}` and body `data` or its form flattening; response type defaults to `json`; each of `observe`, `reportProgress` and `withCredentials` stays absent unless the caller passes it |
| `Client.Download` | projects/migl-rest-client/src/lib/migl-rest-client.service.ts:274-295 | it throws exactly when secured and `getToken` throws, with `getToken`'s error, leaving the state unchanged; success clears only the secure flag and issues a `get` for a `blob` with `data` as params |
| `Client.Get` | projects/migl-rest-client/src/lib/migl-rest-client.service.ts:212-214 | a GET sends `data` as params, `{}` as body and expects `json` |
| `Client.Post` | projects/migl-rest-client/src/lib/migl-rest-client.service.ts:219-223 | sends `post` (`get` in mock mode) with params `{}` and the caller's options winning |
| `Client.Put` | projects/migl-rest-client/src/lib/migl-rest-client.service.ts:228-232 | sends `put` (`get` in mock mode) with params `{}` and the caller's options winning |
| `Client.Delete` | projects/migl-rest-client/src/lib/migl-rest-client.service.ts:245-247 | sends `delete` (`get` in mock mode) with params `{}` and the default response type |
| `Client.Authorize` | projects/migl-rest-client/src/lib/migl-rest-client.service.ts:165-170 | posts `{username, password}` to the built authorisation URI |
| `Client.ValidateToken` | projects/migl-rest-client/src/lib/migl-rest-client.service.ts:175-177 | posts no payload to the built validation URI |
| `ClientProperties.NewIsConstructed` | projects/migl-rest-client/src/lib/migl-rest-client.service.ts:62-84 | a new instance uses cookie storage and the default authentication URIs |
| `ClientProperties.OperationsKeepConstructed` | projects/migl-rest-client/src/lib/migl-rest-client.service.ts:127-135 | no operation changes the storage kind or the authentication URIs |
| `ClientProperties.ConstructedNeverThrows` | projects/migl-rest-client/src/lib/migl-rest-client.service.ts:143-155 | on any constructed instance the storage error cannot occur, so no request or download throws |
| `ClientProperties.LocalStorageSettingRenamesCookie` | projects/migl-rest-client/src/lib/migl-rest-client.service.ts:114 | configuring `tokenStorage: 'localStorage'` keeps cookie storage and names the cookie `localStorage` |
| `ClientProperties.SecuredAppliesOnce` | projects/migl-rest-client/src/lib/migl-rest-client.service.ts:377-386 | after `secured()` the first request carries `Bearer <token>` (or `""` when no truthy token is stored); the next carries `""` and cannot throw |
| `ClientProperties.PublicNeverReadsStore` | projects/migl-rest-client/src/lib/migl-rest-client.service.ts:266-269 | with an invalid storage kind a secured request throws, but `public()` after `secured()` makes it succeed |
| `ClientProperties.WithFilesAppliesOnce` | projects/migl-rest-client/src/lib/migl-rest-client.service.ts:389-398 | after `withFiles()`, alone or with a readable `secured()`, the first POST sends the flattened form and the next one the raw payload |
| `ClientProperties.FilesFlagAcrossGetAndDownload` | projects/migl-rest-client/src/lib/migl-rest-client.service.ts:390-398 | a GET in any letter case, secured or not, clears the files flag without using it; a download keeps it |
| `ClientProperties.MockModeSendsGet` | projects/migl-rest-client/src/lib/migl-rest-client.service.ts:402 | in mock mode every request is sent as `get` to a URL that has an extension |

## Left out

- Payloads are finite trees. A JavaScript object that refers to itself (`o.self = o`) makes `createFormData` recurse at migl-rest-client.service.ts:356 until the stack overflows, and an object created with `Object.create(null)` has no `hasOwnProperty`, so line 348 throws a `TypeError`; neither can be written as a `Value`, and the termination measure `Size` relies on the first.
- HTTP dispatch, the `takeUntil(cancelPending$)` gate, `cancelPendingRequests()` and the mock-mode `delay`. These are asynchronous streams and cancellation. The model stops at the arguments of `HttpClient.request`.
- The mock latency `Math.random()`: it is random and floating point.
- `getCookieExpires`: it reads the wall clock. `SetToken` takes `now` in minutes instead, and the cookie stores `now + cookieExpires`.
- Cookie expiry itself: the browser drops expired cookies; the cookie map keeps them.
- FileSaver, Blob and the `'DOWNLOAD'` marker in `download`, together with its `fileName` and `mime` arguments. They only concern saving the response.
- The response side of `authorize`, which calls `setToken(data.token)` on the server's reply. The model covers its request and `TokenStore.SetToken`.
- `console.warn` on a secured request without a token: output only.
- `JSON.parse` is the `Decoder` parameter, which gives the parsed value's truthiness and its template-string text. `JSON.parse(JSON.stringify(_baseHeader))` is a deep copy, which is the identity on an immutable map.
- `Date.toISOString()` is opaque: a `Date` value carries its ISO string, and invalid dates, which make it throw, are not modelled.
- Numbers are integers: `NaN`, fractions and their `String()` forms are not modelled.
- `JsValues.IntString` prints every digit: JavaScript's `String(n)` switches to exponent form from `1e21` on (`"1e+21"`), and integers beyond 2^53 are not exact doubles.
- `JsValues.ForIn` on a string visits one index per Dafny `char` (a Unicode scalar value); JavaScript visits UTF-16 code units, so a character outside the Basic Multilingual Plane gives one index here and two there.
- `TokenStore.CookieRoundTrip` holds on the cookie map, which keeps every cookie whatever its `secure` flag and expiry. A browser refuses a Secure cookie (`secureCookie` on) over plain HTTP, and a negative `cookieExpires`, which is truthy and accepted, writes a cookie that has already expired.
- The engine's key ordering of JavaScript objects, with integer-like keys first: an `Obj` lists its properties already in `for … in` order. An array is an `Obj` keyed by its indices.
- A FileList's inherited `length` and `item`: `hasOwnProperty` rejects them, so they are not listed.
- An `httpOptions` key present with the value `undefined`; `HttpHeaders` and `HttpParams` instances, which are represented as a header map and a payload value.
- `toLowerCase` beyond ASCII letters: no other character lower-cases to `g`, `e` or `t`, so the GET test is unaffected.
- Concurrent use of the one-shot flags: the model is sequential.
- The Angular module, the configuration type declaration and the generated `dist` builds. They are wiring, types and line-for-line copies of the service.

=== FILE: client.dfy ===
/** `RestClientService` as a pure state machine: the instance's configuration
    and its two one-shot flags form the state, and every call returns the
    next state together with a description of the HTTP call it would issue. */
module Client {
  import opened Results
  import opened JsValues
  import opened FormData
  import opened Urls
  import opened Settings
  import opened TokenStore

  datatype State = State(config: Config, secureRequest: bool, withFiles: bool)

  /** The service constructor; the configuration argument is optional. */
  function New(config: Option<ConfigInput>): (s: State)
    ensures !s.secureRequest && !s.withFiles
    ensures config.None? ==> s.config == Defaults
    ensures config.Some? ==> s.config == Merge(Defaults, config.value)
  {
    State(if config.Some? then Merge(Defaults, config.value) else Defaults, false, false)
  }

  /** `configure(config)`: merges into the same instance, so pending flags
      survive the call. */
  function Configure(s: State, input: ConfigInput): (r: State)
    ensures r.secureRequest == s.secureRequest && r.withFiles == s.withFiles
    ensures r.config == Merge(s.config, input)
  {
    s.(config := Merge(s.config, input))
  }

  /** `secured()`: the next request carries the token. */
  function Secured(s: State): (r: State)
    ensures r.secureRequest && r.config == s.config && r.withFiles == s.withFiles
  {
    s.(secureRequest := true)
  }

  /** `public()`: the next request carries no token. */
  function Public(s: State): (r: State)
    ensures !r.secureRequest && r.config == s.config && r.withFiles == s.withFiles
  {
    s.(secureRequest := false)
  }

  /** `withFiles()`: the next non-GET request sends multipart form data. */
  function WithFiles(s: State): (r: State)
    ensures r.withFiles && r.config == s.config && r.secureRequest == s.secureRequest
  {
    s.(withFiles := true)
  }

  type Headers = map<string, string>

  /** `_baseHeader`, cloned by every call. */
  const BaseHeader: Headers := map[
    "accept" := "application/json",
    "Cache-Control" := "no-cache",
    "Pragma" := "no-cache",
    "Authorization" := ""]

  /** The Authorization value of section 2.1 of RFC 6750 for a token. */
  function BearerCredentials(token: string): (v: string)
    ensures |v| == 7 + |token| && v[..7] == "Bearer " && v[7..] == token
  {
    "Bearer " + token
  }

  /** The header step of `request` and `download`: with the secure flag set
      the token is read, and a truthy one becomes the Authorization
      value. A failing read propagates its error. */
  function RequestHeaders(s: State, st: Stores, decode: Decoder): (r: Result<Headers, StoreError>)
    ensures !s.secureRequest ==> r == Success(BaseHeader)
    ensures r.Failure? <==> s.secureRequest && GetToken(s.config, st, decode).Failure?
    ensures r.Success? ==> r.value.Keys == BaseHeader.Keys
    ensures r.Success? ==> forall k :: k in BaseHeader && k != "Authorization" ==> r.value[k] == BaseHeader[k]
    ensures r.Success? && s.secureRequest ==>
              var t := GetToken(s.config, st, decode).value;
              r.value["Authorization"] == (if t.NoToken? then "" else BearerCredentials(t.text))
  {
    if !s.secureRequest then Success(BaseHeader)
    else
      match GetToken(s.config, st, decode)
      case Failure(e) => Failure(e)
      case Success(token) =>
        if token.NoToken? then Success(BaseHeader)
        else Success(BaseHeader["Authorization" := BearerCredentials(token.text)])
  }

  /** A request body: the payload object itself, or multipart form entries. */
  datatype Body = Payload(data: Value) | Multipart(entries: seq<Entry>)

  /** An options object for `HttpClient.request`; `None` is an absent key. */
  datatype HttpOptions = HttpOptions(
    body: Option<Body>,
    headers: Option<Headers>,
    params: Option<Value>,
    observe: Option<string>,
    reportProgress: Option<bool>,
    responseType: Option<string>,
    withCredentials: Option<bool>)

  /** `{}` as the options argument. */
  const NoOptions: HttpOptions := HttpOptions(None, None, None, None, None, None, None)

  /** Every key present in `over` holds its value from `over`. */
  predicate Overrides(r: HttpOptions, over: HttpOptions) {
    && (over.body.Some? ==> r.body == over.body)
    && (over.headers.Some? ==> r.headers == over.headers)
    && (over.params.Some? ==> r.params == over.params)
    && (over.observe.Some? ==> r.observe == over.observe)
    && (over.reportProgress.Some? ==> r.reportProgress == over.reportProgress)
    && (over.responseType.Some? ==> r.responseType == over.responseType)
    && (over.withCredentials.Some? ==> r.withCredentials == over.withCredentials)
  }

  /** Every key absent from `over` keeps its value from `base`. */
  predicate Keeps(r: HttpOptions, base: HttpOptions, over: HttpOptions) {
    && (over.body.None? ==> r.body == base.body)
    && (over.headers.None? ==> r.headers == base.headers)
    && (over.params.None? ==> r.params == base.params)
    && (over.observe.None? ==> r.observe == base.observe)
    && (over.reportProgress.None? ==> r.reportProgress == base.reportProgress)
    && (over.responseType.None? ==> r.responseType == base.responseType)
    && (over.withCredentials.None? ==> r.withCredentials == base.withCredentials)
  }

  function Pick<T>(base: Option<T>, over: Option<T>): Option<T> {
    if over.Some? then over else base
  }

  /** The object spread `{ ...base, ...over }`. */
  function Spread(base: HttpOptions, over: HttpOptions): (r: HttpOptions)
    ensures Overrides(r, over) && Keeps(r, base, over)
  {
    HttpOptions(
      Pick(base.body, over.body),
      Pick(base.headers, over.headers),
      Pick(base.params, over.params),
      Pick(base.observe, over.observe),
      Pick(base.reportProgress, over.reportProgress),
      Pick(base.responseType, over.responseType),
      Pick(base.withCredentials, over.withCredentials))
  }

  /** What `HttpClient.request(verb, url, options)` is called with. */
  datatype HttpCall = HttpCall(verb: string, url: string, options: HttpOptions)

  /** The state after a call and what the call returned or threw. */
  datatype Step<T> = Step(state: State, outcome: Result<T, StoreError>)

  function LowerAscii(c: char): char {
    if 'A' <= c <= 'Z' then (c as int + 32) as char else c
  }

  /** `method.toLowerCase() === 'get'`. Lower-casing only ASCII letters is
      exact here: no other character lower-cases to `g`, `e` or `t`. */
  predicate IsGet(verb: string) {
    |verb| == 3 && LowerAscii(verb[0]) == 'g' && LowerAscii(verb[1]) == 'e' && LowerAscii(verb[2]) == 't'
  }

  /** The test accepts exactly the eight letter-case spellings of `get`. */
  lemma IsGetSpellings(verb: string)
    ensures IsGet(verb) <==> verb in {"get", "geT", "gEt", "gET", "Get", "GeT", "GEt", "GET"}
  {
    if IsGet(verb) {
      assert verb == [verb[0], verb[1], verb[2]];
      assert verb[0] == 'g' || verb[0] == 'G';
      assert verb[1] == 'e' || verb[1] == 'E';
      assert verb[2] == 't' || verb[2] == 'T';
    }
  }

  /** `responseType ? responseType : 'json'`; an absent type is `""`. */
  function EffectiveResponseType(responseType: string): (t: string)
    ensures t != ""
    ensures responseType != "" ==> t == responseType
    ensures responseType == "" ==> t == "json"
  {
    if responseType != "" then responseType else "json"
  }

  /** `request(method, url, data, responseType, httpOptions)`, the method
      named `verb` here. An absent `data` is `Undef`. If reading the token throws, it throws before either
      flag is reset, so the state is unchanged; otherwise both flags are
      cleared, whatever the method. */
  function Request(s: State, st: Stores, decode: Decoder, verb: string, url: string,
                   data: Value, responseType: string, httpOptions: HttpOptions): (r: Step<HttpCall>)
    ensures r.outcome.Failure? ==> r.state == s && s.secureRequest
    ensures !s.secureRequest ==> r.outcome.Success?
    ensures r.outcome.Failure? <==> s.secureRequest && GetToken(s.config, st, decode).Failure?
    ensures r.outcome.Failure? ==> r.outcome.error == GetToken(s.config, st, decode).error
    ensures r.outcome.Success? ==> r.state == State(s.config, false, false)
    ensures r.outcome.Success? ==>
              var call := r.outcome.value;
              && call.verb == (if s.config.mockData then "get" else verb)
              && call.url == BuildUrl(s.config.endPoint, s.config.mockData, url)
              && Overrides(call.options, httpOptions)
              && RequestHeaders(s, st, decode).Success?
              && (httpOptions.headers.None? ==> call.options.headers == Some(RequestHeaders(s, st, decode).value))
              && (httpOptions.responseType.None? ==> call.options.responseType == Some(EffectiveResponseType(responseType)))
              && (httpOptions.params.None? ==> call.options.params == Some(if IsGet(verb) then data else EmptyObject))
              && (httpOptions.body.None? && IsGet(verb) ==> call.options.body == Some(Payload(EmptyObject)))
              && (httpOptions.body.None? && !IsGet(verb) && s.withFiles ==>
                    call.options.body == Some(Multipart(CreateFormData(data, [], ""))))
              && (httpOptions.body.None? && !IsGet(verb) && !s.withFiles ==> call.options.body == Some(Payload(data)))
              && (httpOptions.observe.None? ==> call.options.observe.None?)
              && (httpOptions.reportProgress.None? ==> call.options.reportProgress.None?)
              && (httpOptions.withCredentials.None? ==> call.options.withCredentials.None?)
  {
    match RequestHeaders(s, st, decode)
    case Failure(e) => Step(s, Failure(e))
    case Success(header) =>
      var body :=
        if IsGet(verb) then Payload(EmptyObject)
        else if s.withFiles then Multipart(CreateFormData(data, [], ""))
        else Payload(data);
      var options := HttpOptions(
        Some(body), Some(header), Some(if IsGet(verb) then data else EmptyObject),
        None, None, Some(EffectiveResponseType(responseType)), None);
      var sent := if s.config.mockData then "get" else verb;
      Step(State(s.config, false, false),
           Success(HttpCall(sent, BuildUrl(s.config.endPoint, s.config.mockData, url), Spread(options, httpOptions))))
  }

  /** `download(url, fileName, mime, data)`, up to the HTTP call: a GET for a
      blob with `data` as the query. It consumes the secure flag but leaves
      the files flag alone. */
  function Download(s: State, st: Stores, decode: Decoder, url: string, data: Value): (r: Step<HttpCall>)
    ensures r.outcome.Failure? ==> r.state == s && s.secureRequest
    ensures !s.secureRequest ==> r.outcome.Success?
    ensures r.outcome.Failure? <==> s.secureRequest && GetToken(s.config, st, decode).Failure?
    ensures r.outcome.Failure? ==> r.outcome.error == GetToken(s.config, st, decode).error
    ensures r.outcome.Success? ==> r.state == State(s.config, false, s.withFiles)
    ensures r.outcome.Success? ==>
              && RequestHeaders(s, st, decode).Success?
              && r.outcome.value == HttpCall("get", BuildUrl(s.config.endPoint, s.config.mockData, url),
                HttpOptions(None, Some(RequestHeaders(s, st, decode).value), Some(data), None, None, Some("blob"), None))
  {
    match RequestHeaders(s, st, decode)
    case Failure(e) => Step(s, Failure(e))
    case Success(header) =>
      var options := HttpOptions(None, Some(header), Some(data), None, None, Some("blob"), None);
      Step(s.(secureRequest := false), Success(HttpCall("get", BuildUrl(s.config.endPoint, s.config.mockData, url), options)))
  }

  /** `get(url, data)`: the payload goes in the query string. */
  function Get(s: State, st: Stores, decode: Decoder, url: string, data: Value): (r: Step<HttpCall>)
    ensures r.outcome.Success? ==>
              && r.outcome.value.verb == "get"
              && r.outcome.value.options.params == Some(data)
              && r.outcome.value.options.body == Some(Payload(EmptyObject))
              && r.outcome.value.options.responseType == Some("json")
  {
    Request(s, st, decode, "get", url, data, "", NoOptions)
  }

  /** `post(url, data, responseType, httpOptions)`. */
  function Post(s: State, st: Stores, decode: Decoder, url: string, data: Value,
                responseType: string, httpOptions: HttpOptions): (r: Step<HttpCall>)
    ensures r.outcome.Success? ==>
              && r.outcome.value.verb == (if s.config.mockData then "get" else "post")
              && Overrides(r.outcome.value.options, httpOptions)
              && (httpOptions.params.None? ==> r.outcome.value.options.params == Some(EmptyObject))
  {
    Request(s, st, decode, "post", url, data, responseType, httpOptions)
  }

  /** `put(url, data, responseType, httpOptions)`. */
  function Put(s: State, st: Stores, decode: Decoder, url: string, data: Value,
               responseType: string, httpOptions: HttpOptions): (r: Step<HttpCall>)
    ensures r.outcome.Success? ==>
              && r.outcome.value.verb == (if s.config.mockData then "get" else "put")
              && Overrides(r.outcome.value.options, httpOptions)
              && (httpOptions.params.None? ==> r.outcome.value.options.params == Some(EmptyObject))
  {
    Request(s, st, decode, "put", url, data, responseType, httpOptions)
  }

  /** `delete(url, data, responseType)`. */
  function Delete(s: State, st: Stores, decode: Decoder, url: string, data: Value,
                  responseType: string): (r: Step<HttpCall>)
    ensures r.outcome.Success? ==>
              && r.outcome.value.verb == (if s.config.mockData then "get" else "delete")
              && r.outcome.value.options.params == Some(EmptyObject)
              && r.outcome.value.options.responseType == Some(EffectiveResponseType(responseType))
  {
    Request(s, st, decode, "delete", url, data, responseType, NoOptions)
  }

  /** The credentials object `{ username, password }`. */
  function Credentials(userName: string, password: string): Value {
    Obj([Prop("username", Str(userName), true), Prop("password", Str(password), true)])
  }

  /** `authorize(userName, password)`, up to the HTTP call: a POST of the
      credentials to the authorisation URI. */
  function Authorize(s: State, st: Stores, decode: Decoder, userName: string, password: string): (r: Step<HttpCall>)
    ensures r.outcome.Success? ==>
              && r.outcome.value.url == BuildUrl(s.config.endPoint, s.config.mockData, s.config.authUri)
              && r.outcome.value.verb == (if s.config.mockData then "get" else "post")
              && (!s.withFiles ==> r.outcome.value.options.body == Some(Payload(Credentials(userName, password))))
  {
    Request(s, st, decode, "post", s.config.authUri, Credentials(userName, password), "", NoOptions)
  }

  /** `validateToken()`: a POST without payload to the validation URI. */
  function ValidateToken(s: State, st: Stores, decode: Decoder): (r: Step<HttpCall>)
    ensures r.outcome.Success? ==>
              && r.outcome.value.url == BuildUrl(s.config.endPoint, s.config.mockData, s.config.validateTokenUri)
              && r.outcome.value.verb == (if s.config.mockData then "get" else "post")
              && (!s.withFiles ==> r.outcome.value.options.body == Some(Payload(Undef)))
  {
    Request(s, st, decode, "post", s.config.validateTokenUri, Undef, "", NoOptions)
  }
}

=== FILE: client_properties.dfy ===
/** Properties of call sequences on the service: the one-shot behaviour of
    the two flags, and what every instance reachable from the constructor
    has in common. */
module ClientProperties {
  import opened Results
  import opened JsValues
  import opened Urls
  import opened Settings
  import opened TokenStore
  import opened Client

  /** What every constructed instance has in common: configuration never
      assigns the storage kind or the two authentication URIs, so they keep
      their initial values. */
  ghost predicate Constructed(s: State) {
    && s.config.tokenStorage == "cookie"
    && s.config.authUri == "/authorize"
    && s.config.validateTokenUri == "/validate-token"
  }

  lemma NewIsConstructed(config: Option<ConfigInput>)
    ensures Constructed(New(config))
  {
  }

  /** `configure`, the flag setters, requests and downloads all keep an
      instance constructed. */
  lemma OperationsKeepConstructed(s: State, input: ConfigInput, st: Stores, decode: Decoder,
                                  verb: string, url: string, data: Value, responseType: string,
                                  httpOptions: HttpOptions)
    requires Constructed(s)
    ensures Constructed(Configure(s, input))
    ensures Constructed(Secured(s)) && Constructed(Public(s)) && Constructed(WithFiles(s))
    ensures Constructed(Request(s, st, decode, verb, url, data, responseType, httpOptions).state)
    ensures Constructed(Download(s, st, decode, url, data).state)
  {
  }

  /** Since the storage kind of a constructed instance is always `cookie`,
      no call on it can throw the storage error, whatever the stores hold;
      asking for `tokenStorage: 'localStorage'` only renames the cookie. */
  lemma ConstructedNeverThrows(s: State, st: Stores, decode: Decoder, token: string, now: int,
                               verb: string, url: string, data: Value, responseType: string,
                               httpOptions: HttpOptions)
    requires Constructed(s)
    ensures GetToken(s.config, st, decode).Success?
    ensures SetToken(s.config, st, token, now).Success?
    ensures Revoke(s.config, st).Success?
    ensures Request(s, st, decode, verb, url, data, responseType, httpOptions).outcome.Success?
    ensures Download(s, st, decode, url, data).outcome.Success?
  {
  }

  /** Configuring `tokenStorage: 'localStorage'` stores the token in a
      cookie named `localStorage`. */
  lemma LocalStorageSettingRenamesCookie(config: ConfigInput)
    requires config.tokenStorage == "localStorage"
    ensures New(Some(config)).config.tokenStorage == "cookie"
    ensures New(Some(config)).config.tokenName == "localStorage"
  {
  }

  /** `secured()` followed by two requests: the first carries
      `Bearer <token>` when the token is truthy, the second carries an
      empty Authorization value and cannot throw. */
  lemma SecuredAppliesOnce(s: State, st: Stores, decode: Decoder,
                           verb1: string, url1: string, data1: Value,
                           verb2: string, url2: string, data2: Value)
    requires GetToken(s.config, st, decode).Success?
    ensures
      var first := Request(Secured(s), st, decode, verb1, url1, data1, "", NoOptions);
      var token := GetToken(s.config, st, decode).value;
      && first.outcome.Success?
      && first.outcome.value.options.headers.Some?
      && "Authorization" in first.outcome.value.options.headers.value
      && first.outcome.value.options.headers.value["Authorization"]
         == (if token.NoToken? then "" else "Bearer " + token.text)
      && var second := Request(first.state, st, decode, verb2, url2, data2, "", NoOptions);
         && second.outcome.Success?
         && second.outcome.value.options.headers == Some(BaseHeader)
         && BaseHeader["Authorization"] == ""
  {
  }

  /** `public()` cancels a pending `secured()`: the request never reads the
      token store, so even an invalid storage kind cannot make it throw. */
  lemma PublicNeverReadsStore(s: State, st: Stores, decode: Decoder,
                              verb: string, url: string, data: Value)
    requires !IsValidStorage(s.config.tokenStorage)
    ensures Request(Secured(s), st, decode, verb, url, data, "", NoOptions).outcome == Failure(InvalidStorage)
    ensures Request(Public(Secured(s)), st, decode, verb, url, data, "", NoOptions).outcome.Success?
  {
  }

  /** `withFiles()` followed by two POSTs: the first sends the flattened
      form, the second the payload unchanged. A pending `secured()` may be
      combined with it as long as the token can be read. */
  lemma WithFilesAppliesOnce(s: State, st: Stores, decode: Decoder,
                             url1: string, data1: Value, url2: string, data2: Value)
    requires !s.secureRequest || GetToken(s.config, st, decode).Success?
    ensures
      var first := Request(WithFiles(s), st, decode, "post", url1, data1, "", NoOptions);
      && first.outcome.Success?
      && first.outcome.value.options.body == Some(Multipart(FormData.CreateFormData(data1, [], "")))
      && var second := Request(first.state, st, decode, "post", url2, data2, "", NoOptions);
         && second.outcome.Success?
         && second.outcome.value.options.body == Some(Payload(data2))
  {
    assert !IsGet("post");
  }

  /** A GET, in any letter case, consumes the files flag without using it;
      a download keeps it for the next request. */
  lemma FilesFlagAcrossGetAndDownload(s: State, st: Stores, decode: Decoder,
                                      verb: string, url: string, data: Value)
    requires IsGet(verb)
    requires !s.secureRequest || GetToken(s.config, st, decode).Success?
    ensures Request(WithFiles(s), st, decode, verb, url, data, "", NoOptions).outcome.Success?
    ensures Request(WithFiles(s), st, decode, verb, url, data, "", NoOptions).state.withFiles == false
    ensures Request(WithFiles(s), st, decode, verb, url, data, "", NoOptions).outcome.value.options.body
            == Some(Payload(EmptyObject))
    ensures Download(WithFiles(s), st, decode, url, data).outcome.Success?
    ensures Download(WithFiles(s), st, decode, url, data).state.withFiles
  {
  }

  /** In mock mode every verb is sent as `get`, to a URL with an extension. */
  lemma MockModeSendsGet(s: State, st: Stores, decode: Decoder, verb: string, url: string,
                         data: Value, responseType: string, httpOptions: HttpOptions)
    requires s.config.mockData
    requires Request(s, st, decode, verb, url, data, responseType, httpOptions).outcome.Success?
    ensures Request(s, st, decode, verb, url, data, responseType, httpOptions).outcome.value.verb == "get"
    ensures HasExtension(Request(s, st, decode, verb, url, data, responseType, httpOptions).outcome.value.url)
  {
  }
}

=== FILE: form_data.dfy ===
/** `createFormData`: the recursive walk that flattens a nested payload into
    the ordered `(key, value)` entries of a multipart `FormData`. */
module FormData {
  import opened JsValues

  /** What `FormData.append` stores: a Blob (a File) as is, anything else as
      its string conversion. */
  datatype FormValue = Text(text: string) | Blob(file: FileRef)

  datatype Entry = Entry(key: string, val: FormValue)

  /** `namespace ? `${namespace}[${property}]` : property`; the empty string
      is a falsy namespace. */
  function FormKey(ns: string, prop: string): (k: string)
    ensures ns != "" ==> ns + "[" <= k && k[|k| - 1] == ']'
    ensures ns == "" ==> k == prop
  {
    if ns != "" then ns + "[" + prop + "]" else prop
  }

  /** The property a key was built from under a namespace. */
  function PropOfKey(ns: string, key: string): string {
    if ns != "" && |key| >= |ns| + 2 then key[|ns| + 1 .. |key| - 1] else key
  }

  /** The property can be read back from the key: `ns[prop]` puts it
      between the brackets. */
  lemma FormKeyInverse(ns: string, prop: string)
    ensures ns != "" ==> |FormKey(ns, prop)| == |ns| + |prop| + 2
    ensures PropOfKey(ns, FormKey(ns, prop)) == prop
  {
  }

  /** The values that reach the last branch of the walk. */
  predicate IsScalar(v: Value) {
    v.Str? || v.Num? || v.Bool? || v.File?
  }

  /** `formData.append(key, v)` converts a non-Blob value with `String(v)`. */
  function AppendedValue(v: Value): (f: FormValue)
    requires IsScalar(v)
    ensures f.Blob? <==> v.File?
  {
    match v
    case File(file) => Blob(file)
    case Str(s) => Text(s)
    case Num(n) => Text(IntString(n))
    case Bool(b) => Text(if b then "true" else "false")
  }

  /** What each leaf is appended as: a File as a Blob of itself, a string
      as itself, a number as its decimal `String(n)`, a boolean as `"true"`
      or `"false"`. */
  lemma AppendedLeaf(v: Value)
    requires IsScalar(v)
    ensures v.File? ==> AppendedValue(v) == Blob(v.file)
    ensures v.Str? ==> AppendedValue(v) == Text(v.s)
    ensures v.Num? ==> AppendedValue(v) == Text(IntString(v.n))
    ensures v.Bool? ==> AppendedValue(v) == Text(if v.b then "true" else "false")
  {
  }

  /** One iteration of the `for … in` loop body, appending to `form`.
      The branches come in source order. A FileList is an object and
      not a File, so it takes the recursive branch; the `${property}[]`
      branch after it is unreachable, as the `assert false` there shows. */
  function AppendProp(p: Prop, form: seq<Entry>, ns: string): (r: seq<Entry>)
    ensures form <= r
    ensures ns != "" ==> forall i :: |form| <= i < |r| ==> ns + "[" <= r[i].key
    decreases Size(p.val)
  {
    if !p.own || !Truthy(p.val) then form
    else
      var key := FormKey(ns, p.key);
      if p.val.Date? then form + [Entry(key, Text(p.val.iso))]
      else if IsObjectType(p.val) && !p.val.File? then
        var r := AppendProps(ForIn(p.val), form, key);
        assert ns != "" ==> key != "" && ns + "[" <= key;
        r
      else if p.val.FileList? then
        assert false;
        form
      else form + [Entry(key, AppendedValue(p.val))]
  }

  /** The whole `for … in` loop over `ps`, threading the form through. */
  function AppendProps(ps: seq<Prop>, form: seq<Entry>, ns: string): (r: seq<Entry>)
    ensures form <= r
    ensures ns != "" ==> forall i :: |form| <= i < |r| ==> ns + "[" <= r[i].key
    decreases Weight(ps)
  {
    if |ps| == 0 then form
    else AppendProps(ps[1..], AppendProp(ps[0], form, ns), ns)
  }

  /** `createFormData(object, form, namespace)` with `object` as `payload`; an absent form is `[]` and an
      absent namespace is `""`. It only appends: `form` is a prefix of the
      result, and below a non-empty namespace every new key is
      `namespace[…]`. */
  function CreateFormData(payload: Value, form: seq<Entry>, ns: string): (r: seq<Entry>)
    ensures form <= r
    ensures ns != "" ==> forall i :: |form| <= i < |r| ==> ns + "[" <= r[i].key
  {
    AppendProps(ForIn(payload), form, ns)
  }

  /** Reference definition: the entries a property contributes, built by
      concatenation instead of by appending to a shared form. */
  function PropEntries(p: Prop, ns: string): seq<Entry>
    decreases Size(p.val)
  {
    if !p.own || !Truthy(p.val) then []
    else if p.val.Date? then [Entry(FormKey(ns, p.key), Text(p.val.iso))]
    else if p.val.Obj? || p.val.FileList? then PropsEntries(ForIn(p.val), FormKey(ns, p.key))
    else [Entry(FormKey(ns, p.key), AppendedValue(p.val))]
  }

  function PropsEntries(ps: seq<Prop>, ns: string): seq<Entry>
    decreases Weight(ps)
  {
    if |ps| == 0 then [] else PropEntries(ps[0], ns) + PropsEntries(ps[1..], ns)
  }

  lemma {:induction false} AppendPropIsConcat(p: Prop, form: seq<Entry>, ns: string)
    ensures AppendProp(p, form, ns) == form + PropEntries(p, ns)
    decreases Size(p.val)
  {
    if p.own && Truthy(p.val) && !p.val.Date? && (p.val.Obj? || p.val.FileList?) {
      AppendPropsIsConcat(ForIn(p.val), form, FormKey(ns, p.key));
    }
  }

  /** The loop over a non-empty list: the first property, then the rest.
      Like the two lemmas below, it only unfolds a definition; it is called
      so that the surrounding proofs stay within the solver's resource limit. */
  lemma AppendPropsCons(ps: seq<Prop>, form: seq<Entry>, ns: string)
    requires ps != []
    ensures AppendProps(ps, form, ns) == AppendProps(ps[1..], AppendProp(ps[0], form, ns), ns)
  {
  }

  /** Associativity of concatenation, stated once for the walk proofs. */
  lemma ConcatAssoc(a: seq<Entry>, b: seq<Entry>, c: seq<Entry>)
    ensures (a + b) + c == a + (b + c)
  {
  }

  /** The walk appends exactly the reference entries, whatever form it is
      given. */
  lemma {:induction false} AppendPropsIsConcat(ps: seq<Prop>, form: seq<Entry>, ns: string)
    ensures AppendProps(ps, form, ns) == form + PropsEntries(ps, ns)
    decreases Weight(ps)
  {
    if |ps| > 0 {
      var mid := AppendProp(ps[0], form, ns);
      AppendPropIsConcat(ps[0], form, ns);
      AppendPropsIsConcat(ps[1..], mid, ns);
      AppendPropsCons(ps, form, ns);
      PropsEntriesCons(ps, ns);
      ConcatAssoc(form, PropEntries(ps[0], ns), PropsEntries(ps[1..], ns));
    }
  }

  /** Only appending: the result on a non-empty form is that form followed by
      the result on a fresh one. */
  lemma CreateFormDataOnlyAppends(payload: Value, form: seq<Entry>, ns: string)
    ensures CreateFormData(payload, form, ns) == form + CreateFormData(payload, [], ns)
  {
    AppendPropsIsConcat(ForIn(payload), form, ns);
    AppendPropsIsConcat(ForIn(payload), [], ns);
  }

  /** An inherited property or a falsy value (`0`, `""`, `false`, `null`,
      `undefined`) contributes nothing. */
  lemma SkippedProp(p: Prop, ps: seq<Prop>, form: seq<Entry>, ns: string)
    requires !p.own || !Truthy(p.val)
    ensures AppendProps([p] + ps, form, ns) == AppendProps(ps, form, ns)
  {
  }

  lemma FilePropEntry(f: FileRef, idx: string, k: string)
    ensures PropEntries(Prop(idx, File(f), true), k) == [Entry(FormKey(k, idx), Blob(f))]
  {
  }

  /** The entries of a non-empty property list: its head's, then its tail's.
      A single unfolding, kept as a lemma to keep the proofs that use it cheap. */
  lemma PropsEntriesCons(ps: seq<Prop>, k: string)
    requires ps != []
    ensures PropsEntries(ps, k) == PropEntries(ps[0], k) + PropsEntries(ps[1..], k)
  {
  }

  /** Own properties keyed `keys` holding the files `fs`. */
  predicate FileProps(ps: seq<Prop>, keys: seq<string>, fs: seq<FileRef>) {
    |ps| == |keys| == |fs| &&
    forall j :: 0 <= j < |ps| ==> ps[j] == Prop(keys[j], File(fs[j]), true)
  }

  /** One Blob entry per file, in order, under the matching key. */
  predicate FileEntries(r: seq<Entry>, keys: seq<string>, fs: seq<FileRef>, k: string)
    requires |keys| == |fs|
  {
    |r| == |fs| &&
    forall i :: 0 <= i < |r| ==> r[i] == Entry(FormKey(k, keys[i]), Blob(fs[i]))
  }

  lemma FileEntriesCons(r: seq<Entry>, rest: seq<Entry>, keys: seq<string>, fs: seq<FileRef>, k: string)
    requires |keys| == |fs| > 0
    requires FileEntries(rest, keys[1..], fs[1..], k)
    requires r == [Entry(FormKey(k, keys[0]), Blob(fs[0]))] + rest
    ensures FileEntries(r, keys, fs, k)
  {
    forall i | 0 <= i < |r|
      ensures r[i] == Entry(FormKey(k, keys[i]), Blob(fs[i]))
    {
      if i > 0 {
        assert r[i] == rest[i - 1];
      }
    }
  }

  /** Own properties keyed `keys` holding the files `fs` yield one Blob
      entry each, in order, under those keys. */
  lemma {:induction false} FileIndexEntries(ps: seq<Prop>, keys: seq<string>, fs: seq<FileRef>, k: string)
    requires FileProps(ps, keys, fs)
    ensures FileEntries(PropsEntries(ps, k), keys, fs, k)
    decreases |ps|
  {
    if ps != [] {
      assert FileProps(ps[1..], keys[1..], fs[1..]);
      FileIndexEntries(ps[1..], keys[1..], fs[1..], k);
      FilePropEntry(fs[0], keys[0], k);
      PropsEntriesCons(ps, k);
      FileEntriesCons(PropsEntries(ps, k), PropsEntries(ps[1..], k), keys, fs, k);
    }
  }

  /** A FileList under key `k` yields `k[0]`, `k[1]`, … holding the files in
      order (bare indices when `k` is the falsy `""`), never an entry named
      `k[]`. */
  lemma FileListEntries(fs: seq<FileRef>, form: seq<Entry>, k: string)
    ensures |CreateFormData(FileList(fs), form, k)| == |form| + |fs|
    ensures forall i :: 0 <= i < |fs| ==>
              CreateFormData(FileList(fs), form, k)[|form| + i]
              == Entry(FormKey(k, DecimalString(i)), Blob(fs[i]))
  {
    var keys := seq(|fs|, i requires 0 <= i < |fs| => DecimalString(i));
    var ps := ForIn(FileList(fs));
    assert FileProps(ps, keys, fs);
    AppendPropsIsConcat(ps, form, k);
    FileIndexEntries(ps, keys, fs, k);
  }

  /** Entries keyed by their own indices under one namespace have distinct keys. */
  lemma IndexKeysDistinct(r: seq<Entry>, k: string)
    requires forall i :: 0 <= i < |r| ==> r[i].key == FormKey(k, DecimalString(i))
    ensures forall i, j :: 0 <= i < j < |r| ==> r[i].key != r[j].key
  {
    forall i | 0 <= i < |r|
      ensures DecimalValue(PropOfKey(k, r[i].key)) == i
    {
      FormKeyInverse(k, DecimalString(i));
      DecimalRoundTrip(i);
    }
  }

  /** The index keys a FileList appends to a form are pairwise distinct. */
  lemma FileListKeysDistinct(fs: seq<FileRef>, form: seq<Entry>, k: string)
    ensures forall i, j :: |form| <= i < j < |CreateFormData(FileList(fs), form, k)| ==>
              CreateFormData(FileList(fs), form, k)[i].key != CreateFormData(FileList(fs), form, k)[j].key
  {
    var r := CreateFormData(FileList(fs), form, k);
    FileListEntries(fs, form, k);
    var added := r[|form|..];
    assert forall i :: 0 <= i < |added| ==> added[i] == r[|form| + i];
    IndexKeysDistinct(added, k);
  }

  /** The nested object `b: {c: 2}` contributes the one entry `b[c]`. */
  lemma NestedSampleEntry()
    ensures PropEntries(Prop("b", Obj([Prop("c", Num(2), true)]), true), "") == [Entry("b[c]", Text("2"))]
  {
    var inner := [Prop("c", Num(2), true)];
    assert FormKey("b", "c") == "b[c]";
    AppendedLeaf(Num(2));
    PropsEntriesCons(inner, "b");
    assert inner[1..] == [];
  }

  /** The entries of each top-level property of the sample payload. */
  lemma SampleEntries(iso: string)
    ensures PropEntries(Prop("a", Num(1), true), "") == [Entry("a", Text("1"))]
    ensures PropEntries(Prop("d", Date(iso), true), "") == [Entry("d", Text(iso))]
    ensures PropEntries(Prop("e", Null, true), "") == []
  {
    AppendedLeaf(Num(1));
  }

  /** The sample payload `{a: 1, b: {c: 2}, d: <a Date>, e: null}` flattens to
      `a`, `b[c]` and `d`; `e` is dropped. */
  lemma SampleFlattening(iso: string)
    ensures CreateFormData(
              Obj([Prop("a", Num(1), true),
                   Prop("b", Obj([Prop("c", Num(2), true)]), true),
                   Prop("d", Date(iso), true),
                   Prop("e", Null, true)]), [], "")
         == [Entry("a", Text("1")), Entry("b[c]", Text("2")), Entry("d", Text(iso))]
  {
    var ps := [Prop("a", Num(1), true), Prop("b", Obj([Prop("c", Num(2), true)]), true),
               Prop("d", Date(iso), true), Prop("e", Null, true)];
    NestedSampleEntry();
    SampleEntries(iso);
    assert ps[1..][1..] == ps[2..] && ps[2..][1..] == ps[3..] && ps[3..][1..] == [];
    PropsEntriesCons(ps[3..], "");
    PropsEntriesCons(ps[2..], "");
    PropsEntriesCons(ps[1..], "");
    PropsEntriesCons(ps, "");
    AppendPropsIsConcat(ps, [], "");
  }

  /** A property named `""` gives a falsy namespace, so its children are
      keyed without any prefix. */
  lemma EmptyNamespaceIsFalsy()
    ensures CreateFormData(Obj([Prop("", Obj([Prop("a", Str("x"), true)]), true)]), [], "")
         == [Entry("a", Text("x"))]
  {
    var inner := [Prop("a", Str("x"), true)];
    var ps := [Prop("", Obj(inner), true)];
    AppendPropsIsConcat(ps, [], "");
    assert ps[1..] == [];
    assert inner[1..] == [];
  }
}

=== FILE: js_values.dfy ===
/** The JavaScript values the REST client hands around as request payloads,
    with the two pieces of JavaScript semantics the client relies on:
    truthiness (`!x`) and the property sequence a `for … in` loop visits. */
module JsValues {

  /** A browser `File`; its contents are never inspected by the client. */
  datatype FileRef = FileRef(name: string, size: nat)

  /** A payload value. `Obj` lists its enumerable properties in `for … in`
      order, inherited ones included (flagged `own == false`); an array is an
      `Obj` whose keys are its indices. `Date` carries the string its
      `toISOString()` returns. */
  datatype Value =
    | Str(s: string)
    | Num(n: int)
    | Bool(b: bool)
    | Null
    | Undef
    | Date(iso: string)
    | File(file: FileRef)
    | FileList(files: seq<FileRef>)
    | Obj(props: seq<Prop>)

  datatype Prop = Prop(key: string, val: Value, own: bool)

  /** The empty object literal `{}`. */
  const EmptyObject: Value := Obj([])

  /** JavaScript truthiness: `0`, `""`, `false`, `null` and `undefined` are
      falsy; every object (an empty one, a Date, a File) is truthy. */
  predicate Truthy(v: Value) {
    match v
    case Str(s) => s != ""
    case Num(n) => n != 0
    case Bool(b) => b
    case Null => false
    case Undef => false
    case _ => true
  }

  /** The falsy values are exactly `""`, `0`, `false`, `null` and `undefined`. */
  lemma FalsyValues(v: Value)
    ensures !Truthy(v) <==> v == Str("") || v == Num(0) || v == Bool(false) || v == Null || v == Undef
  {
  }

  /** `typeof v === 'object'` (which includes `null`). */
  predicate IsObjectType(v: Value) {
    v.Null? || v.Date? || v.File? || v.FileList? || v.Obj?
  }

  /** `typeof x === 'object'` holds exactly for `null` and the objects; it
      fails for strings, numbers, booleans and `undefined`. */
  lemma ObjectTypeValues(v: Value)
    ensures IsObjectType(v) <==> !(v.Str? || v.Num? || v.Bool? || v.Undef?)
    ensures IsObjectType(FileList([])) && IsObjectType(Null)
  {
  }

  predicate IsDigit(c: char) {
    '0' <= c <= '9'
  }

  function DigitChar(d: nat): (c: char)
    requires d < 10
    ensures IsDigit(c)
  {
    "0123456789"[d]
  }

  function DigitValue(c: char): nat
    requires IsDigit(c)
  {
    c as int - '0' as int
  }

  /** `String(n)` for a non-negative integer: its decimal digits. */
  function DecimalString(n: nat): (r: string)
    ensures |r| > 0
    ensures forall i :: 0 <= i < |r| ==> IsDigit(r[i])
    ensures |r| > 1 ==> r[0] != '0'
  {
    if n < 10 then [DigitChar(n)] else DecimalString(n / 10) + [DigitChar(n % 10)]
  }

  /** The number a string of decimal digits denotes. */
  function DecimalValue(s: string): nat
    requires forall i :: 0 <= i < |s| ==> IsDigit(s[i])
  {
    if |s| == 0 then 0 else 10 * DecimalValue(s[..|s| - 1]) + DigitValue(s[|s| - 1])
  }

  lemma {:induction false} DecimalRoundTrip(n: nat)
    ensures DecimalValue(DecimalString(n)) == n
  {
    var r := DecimalString(n);
    if n >= 10 {
      DecimalRoundTrip(n / 10);
      assert r[..|r| - 1] == DecimalString(n / 10);
    }
  }

  /** `String(n)` for any integer. */
  function IntString(n: int): (r: string)
    ensures |r| > 0
    ensures n < 0 <==> r[0] == '-'
    ensures n >= 0 ==> (forall i :: 0 <= i < |r| ==> IsDigit(r[i])) && DecimalValue(r) == n
    ensures n < 0 ==> (forall i :: 1 <= i < |r| ==> IsDigit(r[i])) && DecimalValue(r[1..]) == -n
  {
    if n < 0 then
      DecimalRoundTrip(-n);
      var r := "-" + DecimalString(-n);
      assert r[1..] == DecimalString(-n);
      r
    else
      DecimalRoundTrip(n);
      DecimalString(n)
  }

  /** A measure under which every value's `for … in` properties are smaller
      than the value itself; it gives the recursive walks their termination. */
  function Size(v: Value): nat
  {
    match v
    case Obj(ps) => 1 + Weight(ps)
    case FileList(fs) => 1 + 2 * |fs|
    case _ => 1
  }

  function Weight(ps: seq<Prop>): nat
  {
    if |ps| == 0 then 0 else 1 + Size(ps[0].val) + Weight(ps[1..])
  }

  /** Own index properties `"from"`, `"from+1"`, … of an array-like value. */
  function IndexProps(vals: seq<Value>, from: nat): (ps: seq<Prop>)
    requires from <= |vals|
    ensures |ps| == |vals| - from
    ensures forall k :: 0 <= k < |ps| ==> ps[k] == Prop(DecimalString(from + k), vals[from + k], true)
    ensures (forall k :: 0 <= k < |vals| ==> Size(vals[k]) == 1) ==> Weight(ps) == 2 * |ps|
    decreases |vals| - from
  {
    if from == |vals| then []
    else
      var rest := IndexProps(vals, from + 1);
      var ps := [Prop(DecimalString(from), vals[from], true)] + rest;
      assert ps[1..] == rest;
      ps
  }

  /** The properties `for (const property in v)` visits, in order. A string
      visits its character indices, a FileList its file indices (its
      inherited `length` and `item` are left out: `hasOwnProperty` rejects
      them anyway); numbers, booleans, `null`, `undefined`, Dates and Files
      have no enumerable own properties. */
  function ForIn(v: Value): (ps: seq<Prop>)
    ensures v.Obj? || v.FileList? ==> Weight(ps) < Size(v)
    ensures v.Obj? ==> ps == v.props
    ensures v.FileList? ==> |ps| == |v.files|
    ensures v.FileList? ==> forall k :: 0 <= k < |ps| ==> ps[k] == Prop(DecimalString(k), File(v.files[k]), true)
    ensures !(v.Obj? || v.FileList? || v.Str?) ==> ps == []
  {
    match v
    case Str(s) => IndexProps(seq(|s|, k requires 0 <= k < |s| => Str([s[k]])), 0)
    case FileList(fs) => IndexProps(seq(|fs|, k requires 0 <= k < |fs| => File(fs[k])), 0)
    case Obj(ps) => ps
    case _ => []
  }

  /** A string visits its character indices `"0"`, `"1"`, …, each holding a
      one-character string. */
  lemma ForInString(s: string)
    ensures |ForIn(Str(s))| == |s|
    ensures forall k :: 0 <= k < |s| ==> ForIn(Str(s))[k] == Prop(DecimalString(k), Str([s[k]]), true)
  {
  }
}

=== FILE: results.dfy ===
/** Failure-carrying return types shared by the model: `Option` for a value
    that may be absent (JavaScript's `undefined`/`null`) and `Result` for an
    operation that may throw. */
module Results {

  datatype Option<+T> = None | Some(value: T)

  datatype Result<+T, +E> = Success(value: T) | Failure(error: E)
}

=== FILE: settings.dfy ===
/** The client's configuration record and how a `RestServiceConfig` is merged
    into it, by the constructor and by `configure`. */
module Settings {

  /** The configurable fields of a `RestClientService` instance. */
  datatype Config = Config(
    endPoint: string,
    authUri: string,
    validateTokenUri: string,
    mockData: bool,
    tokenName: string,
    tokenStorage: string,
    cookieExpires: int,   // minutes
    secureCookie: bool)

  /** Field initialisers of the class; the cookie lives one week. */
  const Defaults: Config :=
    Config("", "/authorize", "/validate-token", false, "AuthToken", "cookie", 1440 * 7, false)

  /** A `RestServiceConfig`. Every field is optional; an absent field is
      written as its falsy value (`""`, `false`, `0`), which the merge treats
      exactly like `undefined`. */
  datatype ConfigInput = ConfigInput(
    endPoint: string,
    mockData: bool,
    tokenStorage: string,
    tokenName: string,
    secureCookie: bool,
    cookieExpires: int,
    authUri: string,
    validationTokenUri: string)

  /** `{}`: a configuration object with no field set. */
  const NoSettings: ConfigInput := ConfigInput("", false, "", "", false, 0, "", "")

  /** The six guarded assignments, in source order. A truthy `tokenStorage`
      is assigned to the token NAME, after `tokenName`, so it wins; the
      storage kind, `authUri` and `validationTokenUri` are never assigned. */
  function Merge(c: Config, input: ConfigInput): (r: Config)
    ensures r.tokenStorage == c.tokenStorage
    ensures r.authUri == c.authUri
    ensures r.validateTokenUri == c.validateTokenUri
    ensures r.mockData == (c.mockData || input.mockData)
    ensures r.secureCookie == (c.secureCookie || input.secureCookie)
    ensures r.endPoint == (if input.endPoint == "" then c.endPoint else input.endPoint)
    ensures input.tokenStorage != "" ==> r.tokenName == input.tokenStorage
    ensures input.tokenStorage == "" && input.tokenName != "" ==> r.tokenName == input.tokenName
    ensures input.tokenStorage == "" && input.tokenName == "" ==> r.tokenName == c.tokenName
    ensures r.cookieExpires == (if input.cookieExpires == 0 then c.cookieExpires else input.cookieExpires)
  {
    var c1 := if input.endPoint != "" then c.(endPoint := input.endPoint) else c;
    var c2 := if input.tokenName != "" then c1.(tokenName := input.tokenName) else c1;
    var c3 := if input.tokenStorage != "" then c2.(tokenName := input.tokenStorage) else c2;
    var c4 := if input.secureCookie then c3.(secureCookie := input.secureCookie) else c3;
    var c5 := if input.mockData then c4.(mockData := input.mockData) else c4;
    if input.cookieExpires != 0 then c5.(cookieExpires := input.cookieExpires) else c5
  }

  /** A configuration object with no truthy field changes nothing. */
  lemma MergeNothing(c: Config)
    ensures Merge(c, NoSettings) == c
  {
  }

  /** Applying the same configuration twice is applying it once. */
  lemma MergeIdempotent(c: Config, input: ConfigInput)
    ensures Merge(Merge(c, input), input) == Merge(c, input)
  {
  }

  /** Mock mode and secure cookies can be switched on but never off again. */
  lemma MergeNeverSwitchesOff(c: Config, input: ConfigInput)
    ensures c.mockData ==> Merge(c, input).mockData
    ensures c.secureCookie ==> Merge(c, input).secureCookie
  {
  }
}

=== FILE: token_store.dfy ===
/** The authentication-token store: a cookie jar or the browser's local
    storage, chosen by the configured storage kind, each modelled as a map. */
module TokenStore {
  import opened Results
  import opened Settings

  /** A cookie as written by the cookie service: value, `secure` flag and
      expiry time (in minutes, on the caller's clock). */
  datatype Cookie = Cookie(value: string, secure: bool, expires: int)

  datatype Stores = Stores(cookies: map<string, Cookie>, local: map<string, string>)

  datatype StoreError =
    | InvalidStorage   // 'Invalid Token Storage method'
    | MalformedJson    // the SyntaxError `JSON.parse` throws

  /** What `JSON.parse` makes of a stored item, as far as the client looks
      at it: whether the parsed value is truthy (the `!token` tests) and the
      text the template string `Bearer ${token}` makes of it. The two are
      independent: `[]` is truthy with text `""`, `0` is falsy with text `"0"`. */
  datatype Parsed = Parsed(truthy: bool, text: string)

  /** `JSON.parse` on a stored item: `None` when it throws. */
  type Decoder = string -> Option<Parsed>

  /** What `getToken()` returns: `''` (for a missing or falsy token) or a
      truthy value, kept with its template-string text. */
  datatype Token = NoToken | Present(text: string)

  predicate IsValidStorage(kind: string) {
    kind == "cookie" || kind == "localStorage"
  }

  /** `getToken()`: the cookie's value, or the parsed local-storage item;
      `''` when there is none or it is falsy. */
  function GetToken(c: Config, st: Stores, decode: Decoder): (r: Result<Token, StoreError>)
    ensures r == Failure(InvalidStorage) <==> !IsValidStorage(c.tokenStorage)
    ensures r == Failure(MalformedJson) <==>
              && c.tokenStorage == "localStorage"
              && c.tokenName in st.local && st.local[c.tokenName] != ""
              && decode(st.local[c.tokenName]).None?
    ensures c.tokenStorage == "cookie" ==> r.Success?
    ensures c.tokenStorage == "cookie" && c.tokenName in st.cookies && st.cookies[c.tokenName].value != "" ==>
              r == Success(Present(st.cookies[c.tokenName].value))
    ensures c.tokenStorage == "cookie" && (c.tokenName !in st.cookies || st.cookies[c.tokenName].value == "") ==>
              r == Success(NoToken)
    ensures c.tokenStorage == "localStorage" && (c.tokenName !in st.local || st.local[c.tokenName] == "") ==>
              r == Success(NoToken)
    ensures c.tokenStorage == "localStorage" && c.tokenName in st.local && st.local[c.tokenName] != ""
            && decode(st.local[c.tokenName]).Some? ==>
              var p := decode(st.local[c.tokenName]).value;
              r == Success(if p.truthy then Present(p.text) else NoToken)
  {
    if c.tokenStorage == "cookie" then
      if c.tokenName in st.cookies && st.cookies[c.tokenName].value != "" then
        Success(Present(st.cookies[c.tokenName].value))
      else Success(NoToken)
    else if c.tokenStorage == "localStorage" then
      if c.tokenName in st.local && st.local[c.tokenName] != "" then
        match decode(st.local[c.tokenName])
        case None => Failure(MalformedJson)
        case Some(p) => Success(if p.truthy then Present(p.text) else NoToken)
      else Success(NoToken)
    else Failure(InvalidStorage)
  }

  /** `setToken(token)`: a cookie expiring `cookieExpires` minutes after
      `now`, or the raw token written to local storage. Nothing else in
      either store changes. */
  function SetToken(c: Config, st: Stores, token: string, now: int): (r: Result<Stores, StoreError>)
    ensures r.Failure? <==> !IsValidStorage(c.tokenStorage)
    ensures r.Failure? ==> r.error == InvalidStorage
    ensures r.Success? && c.tokenStorage == "cookie" ==>
              && r.value.local == st.local
              && r.value.cookies.Keys == st.cookies.Keys + {c.tokenName}
              && r.value.cookies[c.tokenName] == Cookie(token, c.secureCookie, now + c.cookieExpires)
              && (forall n :: n in st.cookies && n != c.tokenName ==> r.value.cookies[n] == st.cookies[n])
    ensures r.Success? && c.tokenStorage == "localStorage" ==>
              && r.value.cookies == st.cookies
              && r.value.local.Keys == st.local.Keys + {c.tokenName}
              && r.value.local[c.tokenName] == token
              && (forall n :: n in st.local && n != c.tokenName ==> r.value.local[n] == st.local[n])
  {
    if c.tokenStorage == "cookie" then
      Success(st.(cookies := st.cookies[c.tokenName := Cookie(token, c.secureCookie, now + c.cookieExpires)]))
    else if c.tokenStorage == "localStorage" then
      Success(st.(local := st.local[c.tokenName := token]))
    else Failure(InvalidStorage)
  }

  /** `revoke()`: every cookie goes, or the one local-storage item. */
  function Revoke(c: Config, st: Stores): (r: Result<Stores, StoreError>)
    ensures r.Failure? <==> !IsValidStorage(c.tokenStorage)
    ensures r.Failure? ==> r.error == InvalidStorage
    ensures r.Success? && c.tokenStorage == "cookie" ==> r.value.cookies == map[] && r.value.local == st.local
    ensures r.Success? && c.tokenStorage == "localStorage" ==>
              && r.value.cookies == st.cookies
              && r.value.local.Keys == st.local.Keys - {c.tokenName}
              && (forall n :: n in r.value.local ==> r.value.local[n] == st.local[n])
  {
    if c.tokenStorage == "cookie" then Success(st.(cookies := map[]))
    else if c.tokenStorage == "localStorage" then Success(st.(local := st.local - {c.tokenName}))
    else Failure(InvalidStorage)
  }

  /** `isAuthorized()`: `getToken() !== ''`, true exactly for a truthy
      token, whatever its text; an error propagates. */
  function IsAuthorized(c: Config, st: Stores, decode: Decoder): (r: Result<bool, StoreError>)
    ensures r.Failure? <==> GetToken(c, st, decode).Failure?
    ensures r.Failure? ==> r.error == GetToken(c, st, decode).error
    ensures r == Success(true) <==> (GetToken(c, st, decode).Success? && GetToken(c, st, decode).value.Present?)
  {
    match GetToken(c, st, decode)
    case Failure(e) => Failure(e)
    case Success(t) => Success(t.Present?)
  }

  /** With cookie storage the token written is the token read back (an
      empty token reads as `''`). */
  lemma CookieRoundTrip(c: Config, st: Stores, token: string, now: int, decode: Decoder)
    requires c.tokenStorage == "cookie"
    ensures SetToken(c, st, token, now).Success?
    ensures GetToken(c, SetToken(c, st, token, now).value, decode)
            == Success(if token == "" then NoToken else Present(token))
  {
  }

  /** With local storage the raw token is written but read back through
      `JSON.parse`: the read returns the parsed value, not the token, and
      fails when the token is not JSON. */
  lemma LocalStorageReadBack(c: Config, st: Stores, token: string, now: int, decode: Decoder)
    requires c.tokenStorage == "localStorage"
    ensures SetToken(c, st, token, now).Success?
    ensures token == "" ==> GetToken(c, SetToken(c, st, token, now).value, decode) == Success(NoToken)
    ensures token != "" && decode(token).None? ==>
              GetToken(c, SetToken(c, st, token, now).value, decode) == Failure(MalformedJson)
    ensures token != "" && decode(token).Some? ==>
              GetToken(c, SetToken(c, st, token, now).value, decode)
              == Success(if decode(token).value.truthy then Present(decode(token).value.text) else NoToken)
  {
  }

  /** After a successful `revoke()` the client is no longer authorised. */
  lemma RevokeLogsOut(c: Config, st: Stores, decode: Decoder)
    requires Revoke(c, st).Success?
    ensures IsAuthorized(c, Revoke(c, st).value, decode) == Success(false)
  {
  }

  /** A stored item that parses to a truthy value with empty text, such as
      `[]`, authorises the client even though its text is empty. */
  lemma TruthyEmptyTextAuthorizes(c: Config, st: Stores, decode: Decoder)
    requires c.tokenStorage == "localStorage"
    requires c.tokenName in st.local && st.local[c.tokenName] == "[]"
    requires decode("[]") == Some(Parsed(true, ""))
    ensures GetToken(c, st, decode) == Success(Present(""))
    ensures IsAuthorized(c, st, decode) == Success(true)
  {
  }
}

=== FILE: urls.dfy ===
/** URL building of the REST client: joining the endpoint with a request path
    and, in mock-data mode, pointing extension-less URLs at a `.json` fixture. */
module Urls {

  /** `[0-9a-z]` under the regular expression's case-insensitive flag. */
  predicate IsAlnum(c: char) {
    '0' <= c <= '9' || 'a' <= c <= 'z' || 'A' <= c <= 'Z'
  }

  /** The characters of `[\?#]`, which may end an extension. */
  predicate IsTerminator(c: char) {
    c == '?' || c == '#'
  }

  predicate EndsWithSlash(s: string) {
    |s| > 0 && s[|s| - 1] == '/'
  }

  predicate StartsWithSlash(s: string) {
    |s| > 0 && s[0] == '/'
  }

  /** `s.replace(/\/$/, '')`: at most one trailing slash goes. */
  function DropTrailingSlash(s: string): (r: string)
    ensures r == s || r + "/" == s
    ensures EndsWithSlash(s) <==> r != s
  {
    if EndsWithSlash(s) then s[..|s| - 1] else s
  }

  /** `s.replace(/^\//g, '')`: the anchor only matches at index 0, so even
      with the global flag at most one leading slash goes. */
  function DropLeadingSlash(s: string): (r: string)
    ensures r == s || "/" + r == s
    ensures StartsWithSlash(s) <==> r != s
  {
    if StartsWithSlash(s) then s[1..] else s
  }

  /** The endpoint with exactly one separating slash after it. */
  function WithTrailingSlash(s: string): string {
    if EndsWithSlash(s) then s else s + "/"
  }

  /** The template string `${endPoint without trailing /}/${url without leading /}`. */
  function JoinUrl(endPoint: string, url: string): (r: string)
    ensures r == WithTrailingSlash(endPoint) + DropLeadingSlash(url)
    ensures endPoint <= r
    ensures |r| == |DropTrailingSlash(endPoint)| + 1 + |DropLeadingSlash(url)|
  {
    DropTrailingSlash(endPoint) + "/" + DropLeadingSlash(url)
  }

  /** What it means for `/\.([0-9a-z]+)(?:[\?#]|$)/i` to match `s` at
      `s[i..j]`: a dot, one or more letters or digits, then `?`, `#` or the
      end of the string (the terminator itself is not part of the span). */
  ghost predicate MatchSpan(s: string, i: int, j: int) {
    && 0 <= i
    && i + 1 < j <= |s|
    && s[i] == '.'
    && (forall k :: i < k < j ==> IsAlnum(s[k]))
    && (j == |s| || IsTerminator(s[j]))
  }

  /** `s.match(/\.([0-9a-z]+)(?:[\?#]|$)/i) != null`. */
  ghost predicate HasExtension(s: string) {
    exists i, j :: MatchSpan(s, i, j)
  }

  /** The end of the longest run of letters and digits starting at `k`. */
  function RunEnd(s: string, k: nat): (j: nat)
    requires k <= |s|
    ensures k <= j <= |s|
    ensures forall m :: k <= m < j ==> IsAlnum(s[m])
    ensures j == |s| || !IsAlnum(s[j])
    decreases |s| - k
  {
    if k == |s| || !IsAlnum(s[k]) then k else RunEnd(s, k + 1)
  }

  /** Whether a match starts at the dot `s[i]`: since a terminator is not a
      letter or digit, the only candidate end is the end of the run. */
  predicate ExtensionAt(s: string, i: nat)
    requires i < |s|
  {
    && s[i] == '.'
    && RunEnd(s, i + 1) > i + 1
    && (RunEnd(s, i + 1) == |s| || IsTerminator(s[RunEnd(s, i + 1)]))
  }

  /** Whether some match starts at index `i` or later: the leftmost-first
      search of the regular-expression engine, reduced to its yes/no answer. */
  function FindExtension(s: string, i: nat): (found: bool)
    requires i <= |s|
    ensures found <==> exists a, j :: i <= a && MatchSpan(s, a, j)
    decreases |s| - i
  {
    if i == |s| then false
    else
      var here := ExtensionAt(s, i);
      if here then
        assert MatchSpan(s, i, RunEnd(s, i + 1));
        true
      else
        var rest := FindExtension(s, i + 1);
        assert forall j :: MatchSpan(s, i, j) ==> j == RunEnd(s, i + 1);
        rest
  }

  /** Executable form of the extension test, equal to the regex semantics. */
  predicate ContainsExtension(s: string)
  {
    FindExtension(s, 0)
  }

  lemma ContainsExtensionIsMatch(s: string)
    ensures ContainsExtension(s) <==> HasExtension(s)
  {
  }

  /** Appending `.json` always creates a match at the very end. */
  lemma {:induction false} JsonSuffixMatches(s: string)
    ensures HasExtension(s + ".json")
  {
    var t := s + ".json";
    assert MatchSpan(t, |s|, |t|);
  }

  /** The mock-data rewrite: `.json` is appended exactly when there is no match. */
  function MockFixture(s: string): (r: string)
    ensures HasExtension(r)
    ensures r == s <==> HasExtension(s)
    ensures r != s ==> r == s + ".json"
  {
    ContainsExtensionIsMatch(s);
    if ContainsExtension(s) then s
    else
      JsonSuffixMatches(s);
      s + ".json"
  }

  /** `buildUrl(url)` for a service whose endpoint and mock flag are given. */
  function BuildUrl(endPoint: string, mockData: bool, url: string): (r: string)
    ensures !mockData ==> r == JoinUrl(endPoint, url)
    ensures mockData ==> HasExtension(r)
    ensures mockData ==> (r == JoinUrl(endPoint, url) <==> HasExtension(JoinUrl(endPoint, url)))
    ensures mockData && r != JoinUrl(endPoint, url) ==> r == JoinUrl(endPoint, url) + ".json"
  {
    var joined := JoinUrl(endPoint, url);
    if mockData then MockFixture(joined) else joined
  }

  /** The fixture rewrite never stacks `.json.json`: rewriting twice is
      rewriting once. */
  lemma MockFixtureIdempotent(s: string)
    ensures MockFixture(MockFixture(s)) == MockFixture(s)
  {
  }

  /** One slash is dropped on each side of the seam, no more. */
  lemma JoinExamples()
    ensures JoinUrl("/api/", "/users") == "/api/users"
    ensures JoinUrl("/api", "users") == "/api/users"
    ensures JoinUrl("/api//", "//x") == "/api///x"
  {
  }

  /** A path without an extension gets the `.json` suffix. */
  lemma FixturePlainPath()
    ensures MockFixture("x/list") == "x/list.json"
  {
  }

  /** A dot followed by a slash is no extension. */
  lemma FixtureDottedDirectory()
    ensures MockFixture("v1.2/list") == "v1.2/list.json"
  {
  }

  /** A path that already has an extension is left alone. */
  lemma FixtureWithExtension()
    ensures MockFixture("x/list.csv") == "x/list.csv"
    ensures MockFixture("x/list.json?page=2") == "x/list.json?page=2"
  {
    assert MatchSpan("x/list.csv", 6, 10);
    assert MatchSpan("x/list.json?page=2", 6, 11);
  }

  /** The test runs over the whole URL, query string included: a query
      without a dot gets the suffix after it, and a dotted query value counts
      as an extension. */
  lemma FixtureQueryString()
    ensures MockFixture("x/list?x=1") == "x/list?x=1.json"
    ensures MockFixture("a/b?f=x.csv") == "a/b?f=x.csv"
  {
    assert !ContainsExtension("x/list?x=1");
    assert MatchSpan("a/b?f=x.csv", 7, 11);
  }
}
